=== FILE: README.md ===
# Month-view calendar: grid generator and navigation, in Dafny

This project models the core of a small month-view calendar widget and the
jump-to-date form around it:

- **the month-grid generator** (`generateMatrix`). It turns a reference date
  into a 7-row grid. Row 0 is the weekday header. Rows 1 to 6 hold seven cells
  each: a day number, or the sentinel `-1` for an empty cell. Day 1 sits at the
  column of the weekday of the first of the month (Sunday = 0); for the years
  0 to 99 the code uses the weekday of the same date in 1900 plus the year
  instead (see the Findings section). The month
  length comes from a table, plus one day for February of a Gregorian leap year.
- **the navigation transitions** of the calendar. Tapping a cell selects a day
  (`_onPress` / `setDate`). The Previous and Next buttons step the month
  (`changeMonth` / `setMonth`). A cell is highlighted when its number equals
  the active day.
- **the jump-to-date form.** It has three guarded inputs, a "go" button
  enable predicate, and `jumpToDate`, which builds `new Date(year, month - 1, day)`.

The transitions inherit the overflow normalisation of the host's date
primitive, the ECMAScript `Date`. An out-of-range month carries into the year.
An out-of-range day carries into the neighbouring months. A year from 0 to 99
passed to the `Date` constructor is read as 1900 plus that year. The model
writes these rules out as pure functions on an immutable (year, month0, day)
triple:

- `Dates.Normalize` is `MakeDay`.
- `HostDate.HostYear` is `MakeFullYear`.
- `HostDate.ConstructDate` is the constructor.

`Dates.WeekDay` is a proleptic Gregorian day of the week. It is computed from
an absolute day count, `Dates.Serial`.

Files:

- `dates.dfy` (module `Dates`): the date arithmetic. It covers the leap rule,
  the month table, day numbers, the weekday, and normalisation.
- `hostdate.dfy` (module `HostDate`): the multi-argument `Date` constructor, that
  is, the two-digit year mapping followed by normalisation.
- `matrix.dfy` (module `Matrix`): `generateMatrix`. The fill loop `FillGrid` is
  proved equal to the closed-form grid `SpecGrid`, and the layout lemmas are
  stated about `SpecGrid`.
- `navigation.dfy` (module `Navigation`): day selection, month stepping and the
  highlight predicate.
- `jumpform.dfy` (module `JumpForm`): the input handlers, the "go" predicate and
  `jumpToDate`.

Behaviour of the code worth stating up front:

- The grid is 7 rows by 7 columns.
- The day and month input guards impose only upper bounds (`<= 31`, `<= 12`).
  There is no lower bound.
- Tapping any number other than `-1` calls `setDate`, not only the numbers of
  the current month. Out-of-range numbers cannot come from the grid.
- A jump with a missing field is not an error value. It is the host's invalid
  date, modelled as `None`.

## Model

| member | source | states |
|---|---|---|
| Dates.DaysInMonth | src/components/Calendar/utils.ts:16-28 | a month has 28 to 31 days: the table entry, except that February has 29 days exactly when the year is divisible by 4 and not by 100, or divisible by 400, else 28 |
| Dates.FebruaryAnchors | src/components/Calendar/utils.ts:17-28 | February has 29 days in 2000 and 2024, and 28 in 1900 and 2023 |
| Dates.YearLength | src/components/Calendar/utils.ts:25-27 | the month lengths of a year add up to 366 days in a leap year and to 365 otherwise, consistent with the absolute day count |
| Dates.WeekDayAnchors | src/components/Calendar/utils.ts:12-13 | the weekday function agrees with known dates: 1 Jan 1970 and 1 Feb 2024 were Thursdays (4), and 1 Feb 2023 was a Wednesday (3) |
| Dates.WeekDayNextMonth | src/components/Calendar/utils.ts:13 | the weekday of the first of a month (the `getDay()` of `new Date(year, month, 1)`) moves on by that month's length, modulo 7, to give the weekday of the first of the next month; with the anchors this pins the weekday for every month |
| Dates.CarryDays | src/components/Calendar/Calendar.tsx:24 | carrying an out-of-range day through neighbouring months always yields a valid date, and a day that fits comes back unchanged |
| Dates.CarryDaysSerial | src/components/Calendar/Calendar.tsx:24 | carrying preserves the absolute day: the result names the day `d - 1` days after the first of the month |
| Dates.Normalize | src/components/Calendar/Calendar.tsx:60 | the host normalisation always yields a valid date, and leaves a date with in-range fields unchanged |
| Dates.NormalizeCharacterized | src/components/Calendar/Calendar.tsx:60 | the normalised date is exactly the one valid date whose day number is the host's `MakeDay(y, m, d)`, i.e. `d - 1` days after the first of month `m mod 12` of year `y + floor(m/12)` (both directions) |
| Dates.SerialInjective | src/components/Calendar/Calendar.tsx:60 | two valid dates naming the same absolute day are equal, so the normalised form is unique |
| HostDate.HostYear | App.tsx:23 | the constructor's two-digit year rule: a year from 0 to 99 becomes 1900 plus that year and every other year is kept, so the constructor never yields a year from 0 to 99 |
| HostDate.HostYearCollision | App.tsx:23 | two typed years give the same constructed year exactly when they are equal or one is the two-digit form of the other (50 and 1950); the mapping is idempotent |
| Dates.CarriedMonth | src/components/Calendar/Calendar.tsx:60 | an out-of-range month carries into the year: the result is an in-range month whose index `12 * year + month` equals the original one |
| HostDate.ConstructDate | App.tsx:23 | `new Date(y, m, d)` yields a valid date, and in-range fields come back exactly, except that a year from 0 to 99 comes back as 1900 plus that year |
| Matrix.FillGrid | src/components/Calendar/utils.ts:30-43 | the nested fill loop builds exactly the closed-form grid: the header row, then cell `i` of the day rows holding `i - firstDay + 1` when that is in `1..maxDays` and `-1` otherwise; the counter ends at `maxDays + 1`, so every day is placed, and the unguarded row-1 fill never passes `maxDays` |
| Matrix.GenerateMatrix | src/components/Calendar/utils.ts:3-46 | the grid has 7 rows of 7 cells; row 0 is the weekday header; day 1 is at row 1, column `firstDay` (the true weekday of the 1st; the column `generateMatrix` computes as written is `Matrix.FirstDayAsWritten`, see the Findings section); the day cells read row by row are exactly `1..maxDays`; the result depends only on the year and the month of the input |
| Matrix.GridShape | src/components/Calendar/utils.ts:7-38 | exactly 7 rows of 7 cells, row 0 equal to the weekday header constant, day 1 at row 1, column `firstDay` |
| Matrix.FirstRow | src/components/Calendar/utils.ts:34-38 | in row 1, columns before `firstDay` hold `-1`, and columns from `firstDay` on hold `1, 2, ..., 7 - firstDay` |
| Matrix.GridDays | src/components/Calendar/utils.ts:30-43 | the day cells of rows 1 to 6, read row-major, are exactly the sequence `1..maxDays`: increasing, no gaps, no repeats |
| Matrix.DayPosition | src/components/Calendar/utils.ts:30-43 | a cell holds day `d` exactly when `1 <= d <= maxDays` and the cell is the `(d - 1)`-th cell after row 1, column `firstDay`; header cells hold no day |
| Matrix.EmptyCells | src/components/Calendar/utils.ts:34-40 | a day-row cell holds `-1` exactly when it comes before day 1 or after day `maxDays`; trailing all-`-1` rows are kept |
| Matrix.DayOneColumn | src/components/Calendar/utils.ts:36-38 | in both the grid `generateMatrix` builds as written and the intended grid, day 1 sits in row 1 at the computed first-day column |
| Matrix.AsWrittenAgrees | src/components/Calendar/utils.ts:13 | outside the years 0 to 99, the first-day column as written is the true weekday of the first of the month, and its grid is the intended grid |
| Matrix.AsWrittenTwoDigit | src/components/Calendar/utils.ts:13 | for every year from 0 to 99, the first-day column as written is the weekday of the first of the same month in 1900 plus that year |
| Matrix.TwoDigitYearMisplacesDayOne | src/components/Calendar/utils.ts:13 | for January of the year 50, the first-day column as written is 0 (Sunday, from 1950), but the true weekday is 6 (Saturday) |
| Navigation.SelectDay | src/components/Calendar/Calendar.tsx:22-27 | tapping a header label or a `-1` cell leaves the active date unchanged; tapping a day `d` of the month gives the same year and month with day `d`; the result is always a valid date |
| Navigation.SelectFromGrid | src/components/Calendar/Calendar.tsx:22-25 | tapping any cell of the active month's grid, both the grid `generateMatrix` builds as written (`GridAsWritten`) and the grid with the true first-day column, keeps the year and month; tapping a day cell makes that day the active day, so that cell becomes the highlighted one |
| Navigation.ChangeMonth | src/components/Calendar/Calendar.tsx:59-62 | `setMonth(getMonth() + n)` yields a valid date, so `months[getMonth()]` is in range; it lands in the month `n` away, or in the month after that on day 1 to 3 when the day overflows |
| Navigation.ChangeMonthLands | src/components/Calendar/Calendar.tsx:60 | `setMonth(getMonth() + n)` lands in the target month when the active day fits it, and otherwise on day 1 to 3 of the month after it |
| Navigation.ChangeMonthFits | src/components/Calendar/Calendar.tsx:59-60 | when the day exists in the target month, the result is month `(m + n) mod 12` of year `y + floor((m + n) / 12)` with the day unchanged |
| Navigation.ChangeMonthOverflow | src/components/Calendar/Calendar.tsx:60 | when the day exceeds the target month's length, the excess days roll into the month after it |
| Navigation.ChangeMonthRoundTrip | src/components/Calendar/Calendar.tsx:59-62 | `changeMonth(n)` then `changeMonth(-n)` returns to the original date exactly when the day exists in the target month (both directions) |
| Navigation.EndOfJanuaryPlusOne | src/components/Calendar/Calendar.tsx:60 | 31 January plus one month is 2 March in 2024 and 3 March in 2023 |
| Navigation.Highlighted | src/components/Calendar/Calendar.tsx:41-48 | the loose comparison `item == activeDate.getDate()`: a header label never equals a day, and a `-1` cell never equals a day of the month |
| Navigation.HighlightUnique | src/components/Calendar/Calendar.tsx:41-48 | in both the grid `generateMatrix` builds as written (`GridAsWritten`) and the grid with the true first-day column, exactly one cell satisfies `item == activeDate.getDate()`: the cell holding the active day; header labels and `-1` cells never do |
| JumpForm.OnDayChange | App.tsx:27-31 | a typed day is stored exactly when it is at most 31; otherwise the previous day is kept; month and year are untouched |
| JumpForm.OnMonthChange | App.tsx:33-37 | a typed month is stored exactly when it is at most 12; otherwise the previous month is kept; day and year are untouched |
| JumpForm.OnYearChange | App.tsx:39-41 | a typed year is always stored; day and month are untouched |
| JumpForm.RunKeepsBounds | App.tsx:27-41 | after any sequence of typing events, the stored day is at most 31 and the stored month is at most 12 |
| JumpForm.NoLowerBound | App.tsx:27-37 | the guards impose no lower bound: zero and negative days and months are stored |
| JumpForm.GoEnabled | App.tsx:94 | the "go" button, disabled when any of day, month or year is falsy, is enabled only when all three fields are present, and a zero in any field keeps it disabled |
| JumpForm.GoProducesDate | App.tsx:92-95 | when "go" is enabled (day, month and year all present and non-zero), `jumpToDate` produces a date |
| JumpForm.JumpToDate | App.tsx:22-25 | the jump produces a date exactly when all three fields are present, and that date is always valid |
| JumpForm.JumpExact | App.tsx:23 | for a year outside 0..99 and a month from 1 to 12, the jump returns exactly `(year, month - 1, day)` if and only if the day is within that month |
| JumpForm.JumpOverflow | App.tsx:23 | a day beyond the month's length, up to 31, rolls into the next month instead of failing |
| JumpForm.JumpTwoDigitYear | App.tsx:23 | a year typed as 0 to 99 is read as 1900 plus that year; a day within that month comes back exactly, in the 1900s |
| JumpForm.JumpExamples | App.tsx:23 | 15/6/2023 gives 2023, month index 5, day 15; 31/6/2023 gives 1 July 2023 |
| JumpForm.NegativeInputsRollBack | App.tsx:27-41 | day -5, month -1 and year 2023 are all accepted and enable "go"; the jump then gives 26 October 2022 |

## Findings

| source | as written | input that shows it | evidently intended | confidence | as-written member | corrected member |
|---|---|---|---|---|---|---|
| src/components/Calendar/utils.ts:13 | `firstDay` comes from `new Date(year, month, 1).getDay()`. The `Date` constructor reads a year from 0 to 99 as 1900 plus that year, while `maxDays` (line 16-28) uses the year itself | January of the year 50: day 1 is placed in column 0, because 1 Jan 1950 was a Sunday | day 1 in column 6, because 1 Jan 50 was a Saturday: the weekday of the first of the displayed month, as the comment at line 12 says | medium, not executed | Matrix.FirstDayAsWritten (Matrix.GridAsWritten, counterexample Matrix.TwoDigitYearMisplacesDayOne) | Matrix.FirstDay (used by Matrix.GenerateMatrix; Matrix.DayOneColumn, Matrix.AsWrittenAgrees) |

## Left out

- Rendering, styles, colours, bold text and the button and text-input wiring
  are left out. They are presentation only.
- The prop re-sync effect and the default `new Date()` are left out. They are
  UI reactivity and a clock read. App passes its jump result as `current`,
  while the calendar reads `date`, so the jump never reaches the calendar.
  `jumpToDate` is modelled as a pure function on its own.
- Time of day and time zones are left out. So is the millisecond time value
  and its range limit: the host turns a date more than 100,000,000 days from
  1970 into an invalid date. Years here are unbounded integers.
- String-to-number coercion of the text inputs is left out. The inputs are
  modelled as optional integers, "truthy" meaning present and non-zero. At run
  time they hold strings, where `"0"` is truthy and a non-numeric string
  compares as NaN.
- The constant tables file is not part of this model. The weekday labels are
  assumed to be `Sun` to `Sat`, and the month-length table is
  `[31,28,31,30,31,30,31,31,30,31,30,31]`. The month names are not modelled;
  only the index range of their lookup is proved (`Navigation.ChangeMonth`).
  The highlight predicate assumes the labels are non-numeric, so loose
  equality with a day number is false.
- In-place mutation and aliasing of the shared date object are left out.
  Every transition returns a fresh value.
- `Navigation.SelectDay` does not state a contract for a tapped number outside
  `1..maxDays` other than `-1`. Its body still normalises such a number like
  `setDate`, but no grid cell holds one.

=== FILE: dates.dfy ===
/**
 The calendar arithmetic the widget borrows from the host's date primitive
 (the ECMAScript `Date` object): the proleptic Gregorian leap-year rule, the
 month-length table, an absolute day count, the day of the week, and the
 overflow normalisation by which an out-of-range month carries into the year
 and an out-of-range day carries into the neighbouring months.

 A date is an immutable (year, month0, day) triple; month0 is 0-based
 (0 = January) as in `Date.prototype.getMonth`. Time of day and time zones
 are not part of the model.
 */
module Dates {

  /** A calendar date; `month` is 0-based. */
  datatype Date = Date(year: int, month: int, day: int)

  /** Number of days in each month of a common year, January first. */
  const DaysInEachMonth: seq<int> := [31, 28, 31, 30, 31, 30, 31, 31, 30, 31, 30, 31]

  /** The Gregorian leap-year rule. The host's `%` truncates toward zero, but a
      remainder is zero under truncation exactly when it is zero under Dafny's
      Euclidean `%`, so the rule reads the same for negative years. */
  predicate IsLeapYear(y: int) {
    (y % 4 == 0 && y % 100 != 0) || y % 400 == 0
  }

  /** Length of month `m` of year `y`: the table entry, plus one for February of a leap year. */
  function DaysInMonth(y: int, m: int): (n: int)
    requires 0 <= m < 12
    ensures 28 <= n <= 31
    ensures m != 1 ==> n == DaysInEachMonth[m]
    ensures m == 1 ==> (n == 29 <==> IsLeapYear(y)) && (n == 28 <==> !IsLeapYear(y))
  {
    if m == 1 && IsLeapYear(y) then DaysInEachMonth[m] + 1 else DaysInEachMonth[m]
  }

  /** A date every field of which is in range: what every host `Date` holds. */
  predicate Valid(d: Date) {
    0 <= d.month < 12 && 1 <= d.day <= DaysInMonth(d.year, d.month)
  }

  // ---------------------------------------------------------------------------
  // Absolute day numbers
  // ---------------------------------------------------------------------------

  /** Days from 1 January of year 1 to 1 January of year `y` (negative before
      it). Dafny's `/` by a positive constant is floor division. */
  function DaysBeforeYear(y: int): int {
    var p := y - 1;
    365 * p + p / 4 - p / 100 + p / 400
  }

  /** Days in the first `m` months of a common year. */
  function CommonDaysBefore(m: nat): (n: nat)
    requires m <= 12
  {
    if m == 0 then 0 else CommonDaysBefore(m - 1) + DaysInEachMonth[m - 1]
  }

  /** Days in year `y` before the first of month `m` (`m == 12` gives the year's length). */
  function DaysBeforeMonth(y: int, m: int): (n: int)
    requires 0 <= m <= 12
  {
    CommonDaysBefore(m) + (if m >= 2 && IsLeapYear(y) then 1 else 0)
  }

  /** The absolute day number of day `d` of month `m` of year `y`, day 0 being
      1 January of year 1. `d` may lie outside the month: the number then
      counts forward (or back) from the first of the month, which is how the
      host reads an out-of-range day. */
  function Serial(y: int, m: int, d: int): int
    requires 0 <= m < 12
  {
    DaysBeforeYear(y) + DaysBeforeMonth(y, m) + d - 1
  }

  function SerialOf(x: Date): int
    requires 0 <= x.month < 12
  {
    Serial(x.year, x.month, x.day)
  }

  /** Day of the week of day `d` of month `m` of year `y`, Sunday = 0, as
      `Date.prototype.getDay` reports it (1 January of year 1 is a Monday). */
  function WeekDay(y: int, m: int, d: int): (w: int)
    requires 0 <= m < 12
    ensures 0 <= w < 7
  {
    (Serial(y, m, d) + 1) % 7
  }

  // ---------------------------------------------------------------------------
  // Month stepping and overflow normalisation
  // ---------------------------------------------------------------------------

  /** The first day of the month after month `m` of year `y`. */
  function NextMonth(y: int, m: int): (r: Date)
    requires 0 <= m < 12
    ensures 0 <= r.month < 12 && r.day == 1
    ensures 12 * r.year + r.month == 12 * y + m + 1
  {
    if m == 11 then Date(y + 1, 0, 1) else Date(y, m + 1, 1)
  }

  /** The first day of the month before month `m` of year `y`. */
  function PrevMonth(y: int, m: int): (r: Date)
    requires 0 <= m < 12
    ensures 0 <= r.month < 12 && r.day == 1
    ensures 12 * r.year + r.month == 12 * y + m - 1
  {
    if m == 0 then Date(y - 1, 11, 1) else Date(y, m - 1, 1)
  }

  /** Carries an out-of-range day of month `m` of year `y` into the following
      (or preceding) months until it fits. */
  function CarryDays(y: int, m: int, d: int): (r: Date)
    requires 0 <= m < 12
    ensures Valid(r)
    ensures 1 <= d <= DaysInMonth(y, m) ==> r == Date(y, m, d)
    decreases if d < 1 then 1 else 0, if d < 1 then -d else d
  {
    if d < 1 then
      var p := PrevMonth(y, m);
      CarryDays(p.year, p.month, d + DaysInMonth(p.year, p.month))
    else if d > DaysInMonth(y, m) then
      var q := NextMonth(y, m);
      CarryDays(q.year, q.month, d - DaysInMonth(y, m))
    else
      Date(y, m, d)
  }

  /** The first of month `m` of year `y` once an out-of-range month has been
      carried into the year: floor division and a non-negative remainder, as
      the host's `MakeDay` does. */
  function CarriedMonth(y: int, m: int): (t: Date)
    ensures 0 <= t.month < 12 && t.day == 1
    ensures 12 * t.year + t.month == 12 * y + m
  {
    Date(y + m / 12, m % 12, 1)
  }

  /** The host's `MakeDay(year, month, date)`: an out-of-range month first
      carries into the year (floor division and a non-negative remainder),
      then an out-of-range day carries into the neighbouring months. A date
      whose fields are all in range comes back unchanged. */
  function Normalize(y: int, m: int, d: int): (r: Date)
    ensures Valid(r)
    ensures 0 <= m < 12 && 1 <= d <= DaysInMonth(y, m) ==> r == Date(y, m, d)
  {
    MonthInRange(m);
    var t := CarriedMonth(y, m);
    CarryDays(t.year, t.month, d)
  }

  // ---------------------------------------------------------------------------
  // Lemmas: arithmetic of the day count
  // ---------------------------------------------------------------------------

  /** Division by a positive constant is determined by any quotient/remainder pair. */
  lemma DivModUnique(a: int, k: int, q: int, r: int)
    requires 0 < k && a == k * q + r && 0 <= r < k
    ensures a / k == q && a % k == r
  {
    var q0, r0 := a / k, a % k;
    assert a == k * q0 + r0 && 0 <= r0 < k;
    if q0 > q {
      assert k * q0 >= k * (q + 1) by { MulMonotone(k, q + 1, q0); }
    } else if q0 < q {
      assert k * q >= k * (q0 + 1) by { MulMonotone(k, q0 + 1, q); }
    }
  }

  lemma MulMonotone(k: int, a: int, b: int)
    requires 0 < k && a <= b
    ensures k * a <= k * b
  {
    assert k * b - k * a == k * (b - a);
  }

  /** Stepping from `p` to `p + 1` raises `p / k` by one exactly when `k` divides `p + 1`. */
  lemma FloorStep(p: int, k: int)
    requires 0 < k
    ensures (p + 1) / k - p / k == (if (p + 1) % k == 0 then 1 else 0)
  {
    var q, r := p / k, p % k;
    if r + 1 < k {
      DivModUnique(p + 1, k, q, r + 1);
    } else {
      DivModUnique(p + 1, k, q + 1, 0);
    }
  }

  /** A multiple of 400 is a multiple of 100, and a multiple of 100 a multiple of 4. */
  lemma DivisibilityChain(y: int)
    ensures y % 400 == 0 ==> y % 100 == 0
    ensures y % 100 == 0 ==> y % 4 == 0
  {
    if y % 400 == 0 {
      var t := y / 400;
      DivModUnique(y, 100, 4 * t, 0);
    }
    if y % 100 == 0 {
      var t := y / 100;
      DivModUnique(y, 4, 25 * t, 0);
    }
  }

  /** Year `y` has 365 days, 366 in a leap year. */
  lemma {:induction false} YearLength(y: int)
    ensures DaysBeforeYear(y + 1) - DaysBeforeYear(y) == DaysBeforeMonth(y, 12)
    ensures DaysBeforeMonth(y, 12) == if IsLeapYear(y) then 366 else 365
  {
    var p := y - 1;
    FloorStep(p, 4);
    FloorStep(p, 100);
    FloorStep(p, 400);
    DivisibilityChain(y);
    CommonYearLength();
  }

  /** The month-length table adds up to 365 days. */
  lemma CommonYearLength()
    ensures CommonDaysBefore(12) == 365
  {
    assert CommonDaysBefore(1) == 31;
    assert CommonDaysBefore(2) == 59;
    assert CommonDaysBefore(3) == 90;
    assert CommonDaysBefore(4) == 120;
    assert CommonDaysBefore(5) == 151;
    assert CommonDaysBefore(6) == 181;
    assert CommonDaysBefore(7) == 212;
    assert CommonDaysBefore(8) == 243;
    assert CommonDaysBefore(9) == 273;
    assert CommonDaysBefore(10) == 304;
    assert CommonDaysBefore(11) == 334;
  }

  /** The first of the next month lies a month's length after the first of this one. */
  lemma NextMonthSerial(y: int, m: int)
    requires 0 <= m < 12
    ensures SerialOf(NextMonth(y, m)) == Serial(y, m, 1) + DaysInMonth(y, m)
  {
    if m == 11 {
      YearLength(y);
    }
  }

  /** The first of the previous month lies that month's length before the first of this one. */
  lemma PrevMonthSerial(y: int, m: int)
    requires 0 <= m < 12
    ensures var p := PrevMonth(y, m);
            Serial(y, m, 1) == SerialOf(p) + DaysInMonth(p.year, p.month)
  {
    var p := PrevMonth(y, m);
    assert NextMonth(p.year, p.month) == Date(y, m, 1);
    NextMonthSerial(p.year, p.month);
  }

  /** Within a year, the first of a later month comes later by at least the earlier month's length. */
  lemma {:induction false} DaysBeforeMonthMonotone(y: int, m: int, n: int)
    requires 0 <= m < n <= 12
    ensures DaysBeforeMonth(y, m) + DaysInMonth(y, m) <= DaysBeforeMonth(y, n)
    decreases n - m
  {
    if m + 1 < n {
      DaysBeforeMonthMonotone(y, m + 1, n);
    }
  }

  /** A later year starts at least a year after an earlier one ends. */
  lemma {:induction false} DaysBeforeYearMonotone(y: int, z: int)
    requires y < z
    ensures DaysBeforeYear(y) + DaysBeforeMonth(y, 12) <= DaysBeforeYear(z)
    decreases z - y
  {
    YearLength(y);
    if y + 1 < z {
      DaysBeforeYearMonotone(y + 1, z);
      YearLength(y + 1);
    }
  }

  /** A valid date's day number lies within its year. */
  lemma SerialWithinYear(x: Date)
    requires Valid(x)
    ensures DaysBeforeYear(x.year) <= SerialOf(x) < DaysBeforeYear(x.year) + DaysBeforeMonth(x.year, 12)
  {
    DaysBeforeMonthMonotone(x.year, x.month, 12);
  }

  /** Valid dates in lexicographic order have strictly increasing day numbers. */
  lemma SerialOrdered(a: Date, b: Date)
    requires Valid(a) && Valid(b)
    requires a.year < b.year
          || (a.year == b.year && a.month < b.month)
          || (a.year == b.year && a.month == b.month && a.day < b.day)
    ensures SerialOf(a) < SerialOf(b)
  {
    SerialWithinYear(a);
    SerialWithinYear(b);
    if a.year < b.year {
      DaysBeforeYearMonotone(a.year, b.year);
    } else if a.month < b.month {
      DaysBeforeMonthMonotone(a.year, a.month, b.month);
    }
  }

  /** Two valid dates naming the same day are the same date. */
  lemma SerialInjective(a: Date, b: Date)
    requires Valid(a) && Valid(b) && SerialOf(a) == SerialOf(b)
    ensures a == b
  {
    if a.year < b.year || (a.year == b.year && a.month < b.month)
       || (a.year == b.year && a.month == b.month && a.day < b.day) {
      SerialOrdered(a, b);
    } else if b.year < a.year || (a.year == b.year && b.month < a.month)
       || (a.year == b.year && a.month == b.month && b.day < a.day) {
      SerialOrdered(b, a);
    }
  }

  // ---------------------------------------------------------------------------
  // Lemmas: the normalisation against its reference definition
  // ---------------------------------------------------------------------------

  /** The host defines `MakeDay(y, m, d)` as the day `d - 1` days after the
      first of month `m mod 12` of year `y + floor(m / 12)`. The normalised
      date is exactly the one valid date naming that day. */
  lemma NormalizeCharacterized(y: int, m: int, d: int, x: Date)
    ensures Valid(x) && SerialOf(x) == Serial(y + m / 12, m % 12, 1) + d - 1
            <==> x == Normalize(y, m, d)
  {
    var r := Normalize(y, m, d);
    NormalizeSerial(y, m, d);
    if Valid(x) && SerialOf(x) == Serial(y + m / 12, m % 12, 1) + d - 1 {
      SerialInjective(x, r);
    }
  }

  /** Carrying days keeps the absolute day: the result names the day `d - 1`
      days after the first of month `m` of year `y`. */
  lemma {:induction false} CarryDaysSerial(y: int, m: int, d: int)
    requires 0 <= m < 12
    ensures SerialOf(CarryDays(y, m, d)) == Serial(y, m, d)
    decreases if d < 1 then 1 else 0, if d < 1 then -d else d
  {
    if d < 1 {
      var p := PrevMonth(y, m);
      PrevMonthSerial(y, m);
      CarryDaysSerial(p.year, p.month, d + DaysInMonth(p.year, p.month));
    } else if d > DaysInMonth(y, m) {
      var q := NextMonth(y, m);
      NextMonthSerial(y, m);
      CarryDaysSerial(q.year, q.month, d - DaysInMonth(y, m));
    }
  }

  /** The normalised date names day `d - 1` after the first of the carried month. */
  lemma NormalizeSerial(y: int, m: int, d: int)
    ensures var t := CarriedMonth(y, m); SerialOf(Normalize(y, m, d)) == Serial(t.year, t.month, d)
  {
    var t := CarriedMonth(y, m);
    CarryDaysSerial(t.year, t.month, d);
  }

  /** A month index already in range is its own carried form. */
  lemma MonthInRange(m: int)
    ensures 0 <= m < 12 ==> m / 12 == 0 && m % 12 == m
  {
    if 0 <= m < 12 {
      DivModUnique(m, 12, 0, m);
    }
  }

  /** Normalising a day that fits the carried month leaves the day alone. */
  lemma NormalizeFits(y: int, m: int, d: int)
    requires var t := CarriedMonth(y, m); 1 <= d <= DaysInMonth(t.year, t.month)
    ensures var t := CarriedMonth(y, m); Normalize(y, m, d) == Date(t.year, t.month, d)
  {
  }

  /** A day at most three past a month's end lands at that many days into the next month. */
  lemma NormalizeOverflow(y: int, m: int, d: int)
    requires var t := CarriedMonth(y, m);
             DaysInMonth(t.year, t.month) < d <= DaysInMonth(t.year, t.month) + 3
    ensures var t := CarriedMonth(y, m);
            var q := NextMonth(t.year, t.month);
            Normalize(y, m, d) == Date(q.year, q.month, d - DaysInMonth(t.year, t.month))
  {
    var t := CarriedMonth(y, m);
    var q := NextMonth(t.year, t.month);
    var e := d - DaysInMonth(t.year, t.month);
    assert 1 <= e <= DaysInMonth(q.year, q.month);
    assert CarryDays(q.year, q.month, e) == Date(q.year, q.month, e);
  }

  /** The weekday of the first of the next month is the weekday of the first
      of this month moved on by the month's length. */
  lemma WeekDayNextMonth(y: int, m: int)
    requires 0 <= m < 12
    ensures var q := NextMonth(y, m);
            WeekDay(q.year, q.month, 1) == (WeekDay(y, m, 1) + DaysInMonth(y, m)) % 7
  {
    NextMonthSerial(y, m);
    var a, b := Serial(y, m, 1) + 1, DaysInMonth(y, m);
    var w := a % 7;
    DivModUnique(a + b, 7, a / 7 + (w + b) / 7, (w + b) % 7);
  }

  /** Known days of the week: 1 January 1970 (the host's epoch) was a Thursday,
      1 February 2024 a Thursday and 1 February 2023 a Wednesday. */
  lemma WeekDayAnchors()
    ensures WeekDay(1970, 0, 1) == 4
    ensures WeekDay(2024, 1, 1) == 4
    ensures WeekDay(2023, 1, 1) == 3
  {
  }

  /** February has 29 days exactly in the leap years: 2000 and 2024 but not 1900 or 2023. */
  lemma FebruaryAnchors()
    ensures DaysInMonth(2000, 1) == 29 && DaysInMonth(2024, 1) == 29
    ensures DaysInMonth(1900, 1) == 28 && DaysInMonth(2023, 1) == 28
  {
  }
}

=== FILE: hostdate.dfy ===
/**
 The multi-argument `Date` constructor, `new Date(year, month, day)`: the
 two-digit year mapping of `MakeFullYear` followed by the overflow
 normalisation of `MakeDay`. Both the grid generator (for the first of the
 month) and the jump-to-date form go through it.
 */
module HostDate {
  import opened Dates

  /** The two-digit year mapping of the `Date` constructor (`MakeFullYear`):
      a year from 0 to 99 is read as 1900 plus that year. */
  function HostYear(y: int): (r: int)
    ensures 0 <= y <= 99 ==> r == 1900 + y
    ensures !(0 <= y <= 99) ==> r == y
    ensures !(0 <= r <= 99)
  {
    if 0 <= y <= 99 then 1900 + y else y
  }

  /** Two typed years name the same host year exactly when they are equal or
      one is the two-digit form of the other (50 and 1950, say); applying the
      mapping a second time changes nothing. */
  lemma HostYearCollision(y: int, z: int)
    ensures HostYear(y) == HostYear(z)
            <==> y == z || (0 <= y <= 99 && z == 1900 + y) || (0 <= z <= 99 && y == 1900 + z)
    ensures HostYear(HostYear(y)) == HostYear(y)
  {
  }

  /** `new Date(y, m, d)`: the two-digit year mapping, then normalisation.
      In-range fields come back exactly, except that a year from 0 to 99
      comes back as a year of the 1900s. */
  function ConstructDate(y: int, m: int, d: int): (r: Date)
    ensures Valid(r)
    ensures 0 <= m < 12 && 1 <= d <= DaysInMonth(HostYear(y), m) ==> r == Date(HostYear(y), m, d)
  {
    Normalize(HostYear(y), m, d)
  }
}

=== FILE: jumpform.dfy ===
/**
 The jump-to-date form of the application screen: three inputs (day, month,
 year) that the user types independently, each kept or refused by its own
 change handler, a "go" button enabled once all three hold a truthy value,
 and `jumpToDate`, which builds `new Date(year, month - 1, day)`.

 The handlers bound the day and the month from above only, and the date
 constructor neither checks the day against the month nor rejects a zero or
 negative field: out-of-range values roll over through the host's
 normalisation, and a year from 0 to 99 is read as a year of the 1900s.
 */
module JumpForm {
  import opened Dates
  import opened HostDate

  datatype Option<T> = None | Some(value: T)

  /** The stored input values; `None` until a value has been accepted. */
  datatype Inputs = Inputs(day: Option<int>, month: Option<int>, year: Option<int>)

  /** The form as the screen starts: nothing stored. */
  const Blank: Inputs := Inputs(None, None, None)

  /** One change event of one of the three text inputs. */
  datatype Event = DayTyped(value: int) | MonthTyped(value: int) | YearTyped(value: int)

  /** `onDayChange`: a value up to 31 is stored, anything larger is ignored. */
  function OnDayChange(s: Inputs, v: int): (r: Inputs)
    ensures r.month == s.month && r.year == s.year
    ensures r.day == Some(v) || r == s
    ensures r.day == Some(v) <==> v <= 31 || s.day == Some(v)
  {
    if v <= 31 then s.(day := Some(v)) else s
  }

  /** `onMonthChange`: a value up to 12 is stored, anything larger is ignored. */
  function OnMonthChange(s: Inputs, v: int): (r: Inputs)
    ensures r.day == s.day && r.year == s.year
    ensures r.month == Some(v) || r == s
    ensures r.month == Some(v) <==> v <= 12 || s.month == Some(v)
  {
    if v <= 12 then s.(month := Some(v)) else s
  }

  /** `onYearChange`: every value is stored. */
  function OnYearChange(s: Inputs, v: int): (r: Inputs)
    ensures r.day == s.day && r.month == s.month
    ensures r.year == Some(v)
  {
    s.(year := Some(v))
  }

  function Step(s: Inputs, e: Event): Inputs {
    match e
    case DayTyped(v) => OnDayChange(s, v)
    case MonthTyped(v) => OnMonthChange(s, v)
    case YearTyped(v) => OnYearChange(s, v)
  }

  /** The form after a sequence of change events, oldest first. */
  function Run(s: Inputs, events: seq<Event>): Inputs
    decreases |events|
  {
    if |events| == 0 then s else Run(Step(s, events[0]), events[1..])
  }

  /** What the handlers guarantee of the stored values: upper bounds only. */
  predicate Bounded(s: Inputs) {
    (s.day.Some? ==> s.day.value <= 31) && (s.month.Some? ==> s.month.value <= 12)
  }

  /** A stored value counts as truthy when present and non-zero. */
  predicate Truthy(o: Option<int>) {
    o.Some? && o.value != 0
  }

  /** The "go" button is enabled when day, month and year are all truthy. */
  predicate GoEnabled(s: Inputs)
    ensures GoEnabled(s) ==> s.day.Some? && s.month.Some? && s.year.Some?
    ensures s.day == Some(0) || s.month == Some(0) || s.year == Some(0) ==> !GoEnabled(s)
  {
    Truthy(s.day) && Truthy(s.month) && Truthy(s.year)
  }

  /** `jumpToDate`: `new Date(year, month - 1, day)`. A missing field makes
      the host date invalid, modelled as `None`. */
  function JumpToDate(s: Inputs): (r: Option<Date>)
    ensures r.Some? <==> s.day.Some? && s.month.Some? && s.year.Some?
    ensures r.Some? ==> Valid(r.value)
  {
    if s.day.Some? && s.month.Some? && s.year.Some? then
      Some(ConstructDate(s.year.value, s.month.value - 1, s.day.value))
    else
      None
  }

  // ---------------------------------------------------------------------------
  // Lemmas
  // ---------------------------------------------------------------------------

  /** Whatever is typed, in whatever order, the stored day never exceeds 31
      and the stored month never exceeds 12. */
  lemma {:induction false} RunKeepsBounds(s: Inputs, events: seq<Event>)
    requires Bounded(s)
    ensures Bounded(Run(s, events))
    decreases |events|
  {
    if |events| > 0 {
      RunKeepsBounds(Step(s, events[0]), events[1..]);
    }
  }

  /** The guards have no lower bound: zero and negative days and months are stored. */
  lemma NoLowerBound(s: Inputs, v: int)
    requires v <= 0
    ensures OnDayChange(s, v).day == Some(v)
    ensures OnMonthChange(s, v).month == Some(v)
  {
  }

  /** An enabled "go" always produces a date. */
  lemma GoProducesDate(s: Inputs)
    requires GoEnabled(s)
    ensures JumpToDate(s).Some?
  {
  }

  /** For a four-digit-style year (outside 0..99), a month from 1 to 12 and a
      day within that month, the fields come back exactly, the month 0-based;
      and only such a day does. */
  lemma JumpExact(d: int, m: int, y: int)
    requires 1 <= m <= 12 && !(0 <= y <= 99)
    ensures JumpToDate(Inputs(Some(d), Some(m), Some(y))) == Some(Date(y, m - 1, d))
            <==> 1 <= d <= DaysInMonth(y, m - 1)
  {
  }

  /** A day beyond the month's length rolls into the next month instead of failing. */
  lemma JumpOverflow(d: int, m: int, y: int)
    requires 1 <= m <= 12 && !(0 <= y <= 99)
    requires DaysInMonth(y, m - 1) < d <= 31
    ensures var q := NextMonth(y, m - 1);
            JumpToDate(Inputs(Some(d), Some(m), Some(y))) == Some(Date(q.year, q.month, d - DaysInMonth(y, m - 1)))
  {
    MonthInRange(m - 1);
    NormalizeOverflow(y, m - 1, d);
  }

  /** A year typed as 0 to 99 lands in the 1900s. */
  lemma JumpTwoDigitYear(d: int, m: int, y: int)
    requires 1 <= m <= 12 && 0 <= y <= 99
    requires 1 <= d <= DaysInMonth(1900 + y, m - 1)
    ensures JumpToDate(Inputs(Some(d), Some(m), Some(y))) == Some(Date(1900 + y, m - 1, d))
  {
  }

  /** 15 / 6 / 2023 gives 15 June 2023; 31 / 6 / 2023 rolls over to 1 July 2023. */
  lemma JumpExamples()
    ensures JumpToDate(Inputs(Some(15), Some(6), Some(2023))) == Some(Date(2023, 5, 15))
    ensures JumpToDate(Inputs(Some(31), Some(6), Some(2023))) == Some(Date(2023, 6, 1))
  {
    JumpExact(15, 6, 2023);
    JumpOverflow(31, 6, 2023);
  }

  /** Typing day -5, month -1 and year 2023 is accepted and enables "go";
      month -1 (0-based -2) is November 2022, and day -5 counts six days back
      from its first, to 26 October 2022. */
  lemma NegativeInputsRollBack()
    ensures var s := Run(Blank, [DayTyped(-5), MonthTyped(-1), YearTyped(2023)]);
            s == Inputs(Some(-5), Some(-1), Some(2023)) && GoEnabled(s)
            && JumpToDate(s) == Some(Date(2022, 9, 26))
  {
    var s := Run(Blank, [DayTyped(-5), MonthTyped(-1), YearTyped(2023)]);
    assert s == Inputs(Some(-5), Some(-1), Some(2023));
    DivModUnique(-2, 12, -1, 10);
    assert Normalize(2023, -2, -5) == CarryDays(2022, 10, -5);
    assert CarryDays(2022, 10, -5) == CarryDays(2022, 9, 26);
  }
}

=== FILE: matrix.dfy ===
/**
 The month-grid generator of the calendar widget. A grid has seven rows:
 row 0 is the weekday header, rows 1 to 6 hold seven cells each, every cell
 either a day number or the sentinel -1 marking an empty cell. Day 1 sits in
 row 1 at the column of the weekday of the first of the month (Sunday = 0),
 and the following days fill the grid in row-major order.

 The generator is a nested loop (`FillGrid`) proved equal to a closed-form
 description of the grid (`SpecGrid`), from which the layout properties follow.
 */
module Matrix {
  import opened Dates
  import opened HostDate

  /** A grid cell: a header label, or a number (a day, or `Empty`). */
  datatype Cell = Label(text: string) | Num(value: int)

  /** The sentinel the generator writes into cells that hold no day. */
  const Empty: int := -1

  /** The weekday labels of the header row, Sunday first. */
  const WeekDays: seq<string> := ["Sun", "Mon", "Tue", "Wed", "Thu", "Fri", "Sat"]

  /** Row 0 of every grid: the weekday labels. */
  function HeaderRow(): (row: seq<Cell>)
    ensures |row| == 7
    ensures forall c :: 0 <= c < 7 ==> row[c] == Label(WeekDays[c])
  {
    seq(7, c requires 0 <= c < 7 => Label(WeekDays[c]))
  }

  /** The column of day 1: the weekday of the first of month `m` of year `y`. */
  function FirstDay(y: int, m: int): (fd: int)
    requires 0 <= m < 12
    ensures 0 <= fd < 7
  {
    WeekDay(y, m, 1)
  }

  /** The column of day 1 as `generateMatrix` computes it, through the host
      constructor `new Date(year, month, 1)`, which reads a year from 0 to 99
      as a year of the 1900s. */
  function FirstDayAsWritten(y: int, m: int): (fd: int)
    requires 0 <= m < 12
    ensures 0 <= fd < 7
  {
    var first := ConstructDate(y, m, 1);
    WeekDay(first.year, first.month, first.day)
  }

  // ---------------------------------------------------------------------------
  // The grid in closed form
  // ---------------------------------------------------------------------------

  /** The content of the `i`-th day cell (row-major, starting at row 1, column 0). */
  function SlotCell(firstDay: int, maxDays: int, i: int): Cell {
    if firstDay <= i < firstDay + maxDays then Num(i - firstDay + 1) else Num(Empty)
  }

  /** The day rows of a grid whose day 1 is in column `firstDay` and whose last day is `maxDays`. */
  function SpecRow(firstDay: int, maxDays: int, r: int): (row: seq<Cell>)
    ensures |row| == 7
  {
    seq(7, c => SlotCell(firstDay, maxDays, 7 * r + c))
  }

  function SpecGrid(firstDay: int, maxDays: int): (grid: seq<seq<Cell>>)
    ensures |grid| == 7
  {
    [HeaderRow()] + seq(6, r => SpecRow(firstDay, maxDays, r))
  }

  /** The grid of month `m` of year `y`. */
  function Grid(y: int, m: int): seq<seq<Cell>>
    requires 0 <= m < 12
  {
    SpecGrid(FirstDay(y, m), DaysInMonth(y, m))
  }

  /** The grid `generateMatrix` builds as written, with its own first-day column. */
  function GridAsWritten(y: int, m: int): seq<seq<Cell>>
    requires 0 <= m < 12
  {
    SpecGrid(FirstDayAsWritten(y, m), DaysInMonth(y, m))
  }

  // ---------------------------------------------------------------------------
  // Reading the day numbers back
  // ---------------------------------------------------------------------------

  /** The rows of a grid, concatenated. */
  function Flatten(rows: seq<seq<Cell>>): seq<Cell> {
    if |rows| == 0 then [] else rows[0] + Flatten(rows[1..])
  }

  /** The day numbers among `cells`, in order: labels and `Empty` are skipped. */
  function DayNumbers(cells: seq<Cell>): seq<int> {
    if |cells| == 0 then []
    else
      var head := if cells[0].Num? && cells[0].value != Empty then [cells[0].value] else [];
      head + DayNumbers(cells[1..])
  }

  /** The day numbers of rows 1 to 6 of a grid, read row by row. */
  function DaysOf(grid: seq<seq<Cell>>): seq<int>
    requires |grid| >= 1
  {
    DayNumbers(Flatten(grid[1..]))
  }

  /** The days 1, 2, ..., n. */
  function DayRange(n: nat): seq<int> {
    seq(n, i => i + 1)
  }

  /** `x` clamped into `0..hi`. */
  function Clamp(x: int, hi: int): int {
    if x < 0 then 0 else if x > hi then hi else x
  }

  // ---------------------------------------------------------------------------
  // The generator
  // ---------------------------------------------------------------------------

  /** The fill loop: row 1 receives consecutive days from column `firstDay`
      on without a bound check, rows 2 to 6 receive days while the counter
      has not passed `maxDays`, and every other cell keeps the sentinel. The
      counter ends one past the last day, so every day was placed. */
  method FillGrid(firstDay: int, maxDays: int) returns (matrix: seq<seq<Cell>>, counter: int)
    requires 0 <= firstDay < 7 && 28 <= maxDays <= 31
    ensures matrix == SpecGrid(firstDay, maxDays)
    ensures counter == maxDays + 1
  {
    ghost var spec := SpecGrid(firstDay, maxDays);
    matrix := [HeaderRow()];
    counter := 1;
    var row := 1;
    while row < 7
      invariant 1 <= row <= 7
      invariant matrix == spec[..row]
      invariant counter == Clamp(7 * (row - 1) - firstDay, maxDays) + 1
    {
      var line: seq<Cell> := [];
      var col := 0;
      while col < 7
        invariant 0 <= col <= 7
        invariant line == spec[row][..col]
        invariant counter == Clamp(7 * (row - 1) + col - firstDay, maxDays) + 1
      {
        var cell := Num(Empty);
        if row == 1 && col >= firstDay {
          // at most seven days are placed here, never more than the month has
          assert counter <= maxDays;
          cell := Num(counter);
          counter := counter + 1;
        } else if row > 1 && counter <= maxDays {
          cell := Num(counter);
          counter := counter + 1;
        }
        assert cell == SlotCell(firstDay, maxDays, 7 * (row - 1) + col);
        line := line + [cell];
        col := col + 1;
      }
      assert line == spec[row];
      assert spec[..row + 1] == spec[..row] + [spec[row]];
      matrix := matrix + [line];
      row := row + 1;
    }
    assert spec[..7] == spec;
  }

  /** `generateMatrix`: the header row, then the six day rows of the month
      of `date`. Only the year and the month of `date` are read. Day 1 goes to
      the true weekday of the first of the month; the column as written
      differs for the years 0 to 99 (`FirstDayAsWritten`). */
  method GenerateMatrix(date: Date) returns (matrix: seq<seq<Cell>>)
    requires 0 <= date.month < 12
    ensures matrix == Grid(date.year, date.month)
    ensures |matrix| == 7 && forall r :: 0 <= r < 7 ==> |matrix[r]| == 7
    ensures matrix[0] == HeaderRow()
    ensures matrix[1][FirstDay(date.year, date.month)] == Num(1)
    ensures DaysOf(matrix) == DayRange(DaysInMonth(date.year, date.month))
  {
    var firstDay := FirstDay(date.year, date.month);
    var maxDays := DaysInMonth(date.year, date.month);
    var counter;
    matrix, counter := FillGrid(firstDay, maxDays);
    GridShape(firstDay, maxDays);
    GridDays(firstDay, maxDays);
  }

  // ---------------------------------------------------------------------------
  // Lemmas: the layout of a grid
  // ---------------------------------------------------------------------------

  /** Seven rows of seven cells, the header first, day 1 at column `firstDay` of row 1. */
  lemma GridShape(firstDay: int, maxDays: int)
    requires 0 <= firstDay < 7 && 28 <= maxDays <= 31
    ensures var g := SpecGrid(firstDay, maxDays);
            |g| == 7 && (forall r :: 0 <= r < 7 ==> |g[r]| == 7)
            && g[0] == HeaderRow() && g[1][firstDay] == Num(1)
  {
    var g := SpecGrid(firstDay, maxDays);
    assert g[1] == SpecRow(firstDay, maxDays, 0);
    assert g[1][firstDay] == SlotCell(firstDay, maxDays, firstDay);
  }

  /** A day cell of row `r`, column `c` is the `7 * (r - 1) + c`-th slot. */
  lemma CellIsSlot(firstDay: int, maxDays: int, r: int, c: int)
    requires 1 <= r < 7 && 0 <= c < 7
    ensures SpecGrid(firstDay, maxDays)[r][c] == SlotCell(firstDay, maxDays, 7 * (r - 1) + c)
  {
    assert SpecGrid(firstDay, maxDays)[r] == SpecRow(firstDay, maxDays, r - 1);
  }

  /** Row 1: sentinels before column `firstDay`, then the days 1 to `7 - firstDay`. */
  lemma FirstRow(firstDay: int, maxDays: int)
    requires 0 <= firstDay < 7 && 28 <= maxDays <= 31
    ensures forall c :: 0 <= c < firstDay ==> SpecGrid(firstDay, maxDays)[1][c] == Num(Empty)
    ensures forall c :: firstDay <= c < 7 ==> SpecGrid(firstDay, maxDays)[1][c] == Num(c - firstDay + 1)
  {
    forall c | 0 <= c < 7 {
      CellIsSlot(firstDay, maxDays, 1, c);
    }
  }

  /** Where a day is: day `d` appears in exactly one cell, the `d - 1`-th slot
      after column `firstDay` of row 1, and only when `1 <= d <= maxDays`. */
  lemma DayPosition(firstDay: int, maxDays: int, d: int, r: int, c: int)
    requires 0 <= firstDay < 7 && 28 <= maxDays <= 31
    requires 0 <= r < 7 && 0 <= c < 7 && d != Empty
    ensures SpecGrid(firstDay, maxDays)[r][c] == Num(d)
            <==> 1 <= d <= maxDays && 1 <= r && 7 * (r - 1) + c == firstDay + d - 1
  {
    if r == 0 {
      assert SpecGrid(firstDay, maxDays)[0] == HeaderRow();
    } else {
      CellIsSlot(firstDay, maxDays, r, c);
    }
  }

  /** The empty cells of rows 1 to 6 are exactly those before day 1 and after
      day `maxDays`; trailing rows of sentinels are kept. */
  lemma EmptyCells(firstDay: int, maxDays: int, r: int, c: int)
    requires 0 <= firstDay < 7 && 28 <= maxDays <= 31
    requires 1 <= r < 7 && 0 <= c < 7
    ensures SpecGrid(firstDay, maxDays)[r][c] == Num(Empty)
            <==> 7 * (r - 1) + c < firstDay || 7 * (r - 1) + c >= firstDay + maxDays
  {
    CellIsSlot(firstDay, maxDays, r, c);
  }

  /** Concatenating rows of seven: cell `i` is column `i % 7` of row `i / 7`. */
  lemma {:induction false} FlattenIndex(rows: seq<seq<Cell>>)
    requires forall k :: 0 <= k < |rows| ==> |rows[k]| == 7
    ensures |Flatten(rows)| == 7 * |rows|
    ensures forall i :: 0 <= i < 7 * |rows| ==> Flatten(rows)[i] == rows[i / 7][i % 7]
  {
    if |rows| > 0 {
      FlattenIndex(rows[1..]);
      var f := Flatten(rows);
      assert f == rows[0] + Flatten(rows[1..]);
      forall i | 7 <= i < 7 * |rows|
        ensures f[i] == rows[i / 7][i % 7]
      {
        assert f[i] == Flatten(rows[1..])[i - 7];
        assert (i - 7) / 7 == i / 7 - 1 && (i - 7) % 7 == i % 7;
      }
    }
  }

  lemma {:induction false} DayNumbersAppend(a: seq<Cell>, b: seq<Cell>)
    ensures DayNumbers(a + b) == DayNumbers(a) + DayNumbers(b)
  {
    if |a| == 0 {
      assert a + b == b;
    } else {
      assert (a + b)[0] == a[0];
      assert (a + b)[1..] == a[1..] + b;
      DayNumbersAppend(a[1..], b);
    }
  }

  lemma {:induction false} DayNumbersOfEmpty(n: nat)
    ensures DayNumbers(seq(n, _ => Num(Empty))) == []
  {
    if n > 0 {
      assert seq(n, _ => Num(Empty))[1..] == seq(n - 1, _ => Num(Empty));
      DayNumbersOfEmpty(n - 1);
    }
  }

  lemma {:induction false} DayNumbersOfRun(lo: int, n: nat)
    requires lo >= 1
    ensures DayNumbers(seq(n, i => Num(lo + i))) == seq(n, i => lo + i)
    decreases n
  {
    if n > 0 {
      assert seq(n, i => Num(lo + i))[1..] == seq(n - 1, i => Num(lo + 1 + i));
      DayNumbersOfRun(lo + 1, n - 1);
      assert seq(n, i => lo + i) == [lo] + seq(n - 1, i => lo + 1 + i);
    }
  }

  /** Read row by row, the day cells of rows 1 to 6 are exactly 1, 2, ..., maxDays:
      increasing, without gaps and without repeats. */
  lemma GridDays(firstDay: int, maxDays: int)
    requires 0 <= firstDay < 7 && 28 <= maxDays <= 31
    ensures DaysOf(SpecGrid(firstDay, maxDays)) == DayRange(maxDays)
  {
    var g := SpecGrid(firstDay, maxDays);
    var rows := g[1..];
    assert forall k :: 0 <= k < 6 ==> rows[k] == SpecRow(firstDay, maxDays, k);
    FlattenIndex(rows);
    var flat := Flatten(rows);
    var pre := seq(firstDay, _ => Num(Empty));
    var days := seq(maxDays, i => Num(1 + i));
    var post := seq(42 - firstDay - maxDays, _ => Num(Empty));
    forall i | 0 <= i < 42
      ensures flat[i] == (pre + days + post)[i]
    {
      assert flat[i] == SpecRow(firstDay, maxDays, i / 7)[i % 7];
      assert 7 * (i / 7) + i % 7 == i;
      assert flat[i] == SlotCell(firstDay, maxDays, i);
      if i < firstDay {
        assert (pre + days + post)[i] == pre[i];
      } else if i < firstDay + maxDays {
        assert (pre + days + post)[i] == days[i - firstDay];
      } else {
        assert (pre + days + post)[i] == post[i - firstDay - maxDays];
      }
    }
    assert flat == pre + days + post;
    DayNumbersAppend(pre + days, post);
    DayNumbersAppend(pre, days);
    DayNumbersOfEmpty(firstDay);
    DayNumbersOfEmpty(42 - firstDay - maxDays);
    DayNumbersOfRun(1, maxDays);
  }

  /** Outside the years 0 to 99 the first-day column as written is the true weekday. */
  lemma AsWrittenAgrees(y: int, m: int)
    requires 0 <= m < 12 && !(0 <= y <= 99)
    ensures FirstDayAsWritten(y, m) == FirstDay(y, m)
    ensures GridAsWritten(y, m) == Grid(y, m)
  {
  }

  /** Inside the years 0 to 99 the first-day column as written is the
      weekday of the same month in 1900 plus the year. */
  lemma AsWrittenTwoDigit(y: int, m: int)
    requires 0 <= m < 12 && 0 <= y <= 99
    ensures FirstDayAsWritten(y, m) == FirstDay(1900 + y, m)
  {
  }

  /** 1 January of the year 50 was a Saturday. */
  lemma FirstDayOfYear50()
    ensures FirstDay(50, 0) == 6
  {
    assert DaysBeforeYear(50) == 17897;
    assert Serial(50, 0, 1) == 17897;
  }

  /** `generateMatrix` as written reads the year 50 as 1950, whose 1 January was a Sunday. */
  lemma FirstDayAsWrittenOfYear50()
    ensures FirstDayAsWritten(50, 0) == 0
  {
    assert HostYear(50) == 1950;
    assert ConstructDate(50, 0, 1) == Date(1950, 0, 1);
    assert DaysBeforeYear(1950) == 711857;
    assert Serial(1950, 0, 1) == 711857;
  }

  /** Day 1 sits in row 1 at the first-day column, in the grid as written and in the intended one. */
  lemma DayOneColumn(y: int, m: int)
    requires 0 <= m < 12
    ensures GridAsWritten(y, m)[1][FirstDayAsWritten(y, m)] == Num(1)
    ensures Grid(y, m)[1][FirstDay(y, m)] == Num(1)
  {
    GridShape(FirstDayAsWritten(y, m), DaysInMonth(y, m));
    GridShape(FirstDay(y, m), DaysInMonth(y, m));
  }

  /** 1 January of the year 50 was a Saturday, but `generateMatrix` as written places day 1
      of that month in the Sunday column, the weekday of 1 January 1950. */
  lemma TwoDigitYearMisplacesDayOne()
    ensures FirstDay(50, 0) == 6
    ensures FirstDayAsWritten(50, 0) == 0
  {
    FirstDayOfYear50();
    FirstDayAsWrittenOfYear50();
  }
}

=== FILE: navigation.dfy ===
/**
 The navigation state of the calendar widget: the active date, replaced
 wholesale by each user action. Tapping a grid cell selects a day, the
 Previous and Next buttons step the month, and the cell whose number equals
 the active day is highlighted.

 Both transitions go through the host's `setDate` / `setMonth`, so they
 inherit its overflow normalisation: stepping from the 31st into a shorter
 month carries the excess days into the month after it.
 */
module Navigation {
  import opened Dates
  import opened Matrix

  /** The highlight test `item == activeDate.getDate()`. The test compares
      loosely: a header label converts to a non-number and equals no day. */
  predicate Highlighted(cell: Cell, day: int)
    ensures cell.Label? ==> !Highlighted(cell, day)
    ensures cell == Num(Empty) && 1 <= day ==> !Highlighted(cell, day)
  {
    cell.Num? && cell.value == day
  }

  /** `_onPress`: a header label or an empty cell leaves the active date as it
      is; any other number becomes the day of the month through `setDate`,
      counted from the first of the active month. */
  function SelectDay(active: Date, item: Cell): (r: Date)
    requires Valid(active)
    ensures Valid(r)
    ensures item.Label? || item == Num(Empty) ==> r == active
    ensures item.Num? && 1 <= item.value <= DaysInMonth(active.year, active.month) ==>
              r == Date(active.year, active.month, item.value)
  {
    match item
    case Label(_) => active
    case Num(v) =>
      if v == Empty then active
      else Normalize(active.year, active.month, v)
  }

  /** The first of the month `n` months away from the active month, the year
      carried: the month `changeMonth(n)` aims at. */
  function TargetMonth(active: Date, n: int): (t: Date)
    requires Valid(active)
    ensures 0 <= t.month < 12 && t.day == 1
    ensures 12 * t.year + t.month == 12 * active.year + active.month + n
  {
    CarriedMonth(active.year, active.month + n)
  }

  /** `changeMonth(n)`: `setMonth(getMonth() + n)` on the active date. The
      result is always a valid date, so the month name lookup
      `months[getMonth()]` is in range. It lands in the month `n` months
      away, or, when the active day overflows that month, in the month
      after it, on one of its first three days. */
  function ChangeMonth(active: Date, n: int): (r: Date)
    requires Valid(active)
    ensures Valid(r)
    ensures var k := 12 * r.year + r.month;
            var target := 12 * active.year + active.month + n;
            k == target || (k == target + 1 && r.day <= 3)
  {
    ChangeMonthLands(active, n);
    Normalize(active.year, active.month + n, active.day)
  }

  /** Where `setMonth(getMonth() + n)` lands: in the target month when the
      active day fits it, otherwise on one of the first three days of the
      month after it. */
  lemma ChangeMonthLands(active: Date, n: int)
    requires Valid(active)
    ensures var r := Normalize(active.year, active.month + n, active.day);
            var k := 12 * r.year + r.month;
            var target := 12 * active.year + active.month + n;
            k == target || (k == target + 1 && r.day <= 3)
  {
    var t := TargetMonth(active, n);
    if active.day <= DaysInMonth(t.year, t.month) {
      NormalizeFits(active.year, active.month + n, active.day);
    } else {
      NormalizeOverflow(active.year, active.month + n, active.day);
    }
  }

  // ---------------------------------------------------------------------------
  // Lemmas: month stepping
  // ---------------------------------------------------------------------------

  /** When the active day exists in the target month, `changeMonth` keeps the
      day and lands in month `(m + n) mod 12` of year `y + floor((m + n) / 12)`. */
  lemma ChangeMonthFits(active: Date, n: int)
    requires Valid(active)
    requires var t := TargetMonth(active, n); active.day <= DaysInMonth(t.year, t.month)
    ensures var t := TargetMonth(active, n); ChangeMonth(active, n) == Date(t.year, t.month, active.day)
    ensures ChangeMonth(active, n)
            == Date(active.year + (active.month + n) / 12, (active.month + n) % 12, active.day)
  {
  }

  /** When the active day does not exist in the target month, the excess
      days carry into the month after it. */
  lemma ChangeMonthOverflow(active: Date, n: int)
    requires Valid(active)
    requires var t := TargetMonth(active, n); active.day > DaysInMonth(t.year, t.month)
    ensures var t := TargetMonth(active, n);
            var q := NextMonth(t.year, t.month);
            ChangeMonth(active, n) == Date(q.year, q.month, active.day - DaysInMonth(t.year, t.month))
  {
    var t := TargetMonth(active, n);
    assert active.day <= 31 && DaysInMonth(t.year, t.month) >= 28;
    NormalizeOverflow(active.year, active.month + n, active.day);
  }

  /** Stepping `n` months and back returns to the active date exactly when
      the active day exists in the month stepped to. */
  lemma ChangeMonthRoundTrip(active: Date, n: int)
    requires Valid(active)
    ensures var t := TargetMonth(active, n);
            ChangeMonth(ChangeMonth(active, n), -n) == active
            <==> active.day <= DaysInMonth(t.year, t.month)
  {
    var t := TargetMonth(active, n);
    if active.day <= DaysInMonth(t.year, t.month) {
      StepBackAfterFit(active, n);
    } else {
      StepBackAfterOverflow(active, n);
    }
  }

  lemma StepBackAfterFit(active: Date, n: int)
    requires Valid(active)
    requires var t := TargetMonth(active, n); active.day <= DaysInMonth(t.year, t.month)
    ensures ChangeMonth(ChangeMonth(active, n), -n) == active
  {
    var t := TargetMonth(active, n);
    var there := Date(t.year, t.month, active.day);
    ChangeMonthFits(active, n);
    var u := TargetMonth(there, -n);
    SameMonthIndex(u, active);
    ChangeMonthFits(there, -n);
  }

  /** Two in-range months with the same index `12 * year + month` are the same month. */
  lemma SameMonthIndex(a: Date, b: Date)
    requires 0 <= a.month < 12 && 0 <= b.month < 12
    requires 12 * a.year + a.month == 12 * b.year + b.month
    ensures a.year == b.year && a.month == b.month
  {
  }

  lemma StepBackAfterOverflow(active: Date, n: int)
    requires Valid(active)
    requires var t := TargetMonth(active, n); active.day > DaysInMonth(t.year, t.month)
    ensures ChangeMonth(ChangeMonth(active, n), -n) != active
  {
    var t := TargetMonth(active, n);
    ChangeMonthOverflow(active, n);
    var q := NextMonth(t.year, t.month);
    var there := ChangeMonth(active, n);
    // the carried day is at most 3, so the step back does not overflow
    assert there == Date(q.year, q.month, active.day - DaysInMonth(t.year, t.month));
    assert there.day <= 3;
    var u := TargetMonth(there, -n);
    assert 12 * u.year + u.month == 12 * active.year + active.month + 1;
    ChangeMonthFits(there, -n);
    var back := ChangeMonth(there, -n);
    assert back == Date(u.year, u.month, there.day);
  }

  /** 31 January stepped one month forward lands on 2 March in the leap year
      2024 and on 3 March in 2023. */
  lemma EndOfJanuaryPlusOne(y: int)
    requires y == 2024 || y == 2023
    ensures ChangeMonth(Date(y, 0, 31), 1) == Date(y, 2, if y == 2024 then 2 else 3)
  {
    var a := Date(y, 0, 31);
    MonthInRange(1);
    assert CarriedMonth(y, 1) == Date(y, 1, 1);
    assert TargetMonth(a, 1) == Date(y, 1, 1);
    assert DaysInMonth(y, 1) == if y == 2024 then 29 else 28;
    ChangeMonthOverflow(a, 1);
    assert NextMonth(y, 1) == Date(y, 2, 1);
  }

  // ---------------------------------------------------------------------------
  // Lemmas: the grid of the active date
  // ---------------------------------------------------------------------------

  /** Row of the grid cell holding day `d` of a month starting in column `firstDay`. */
  function DayRow(firstDay: int, d: int): int {
    1 + (firstDay + d - 1) / 7
  }

  /** Column of the grid cell holding day `d` of a month starting in column `firstDay`. */
  function DayColumn(firstDay: int, d: int): int {
    (firstDay + d - 1) % 7
  }

  /** In any grid of a month of `maxDays` days starting in column `firstDay`,
      exactly one cell is highlighted for a day of that month: the cell
      holding it. Header labels and empty cells never are. */
  lemma HighlightIn(firstDay: int, maxDays: int, day: int)
    requires 0 <= firstDay < 7 && 28 <= maxDays <= 31 && 1 <= day <= maxDays
    ensures 1 <= DayRow(firstDay, day) < 7 && 0 <= DayColumn(firstDay, day) < 7
    ensures var g := SpecGrid(firstDay, maxDays);
            forall r, c :: 0 <= r < 7 && 0 <= c < 7 ==>
              (Highlighted(g[r][c], day)
               <==> r == DayRow(firstDay, day) && c == DayColumn(firstDay, day))
  {
    GridShape(firstDay, maxDays);
    forall r, c | 0 <= r < 7 && 0 <= c < 7
      ensures Highlighted(SpecGrid(firstDay, maxDays)[r][c], day)
              <==> r == DayRow(firstDay, day) && c == DayColumn(firstDay, day)
    {
      DayPosition(firstDay, maxDays, day, r, c);
    }
  }

  /** Exactly one cell of the active month's grid is highlighted, the cell
      holding the active day, both in the grid `generateMatrix` builds as
      written and in the grid with the true first-day column. */
  lemma HighlightUnique(active: Date)
    requires Valid(active)
    ensures var fd := FirstDay(active.year, active.month);
            var g := Grid(active.year, active.month);
            1 <= DayRow(fd, active.day) < 7 && 0 <= DayColumn(fd, active.day) < 7
            && forall r, c :: 0 <= r < 7 && 0 <= c < 7 ==>
                 (Highlighted(g[r][c], active.day)
                  <==> r == DayRow(fd, active.day) && c == DayColumn(fd, active.day))
    ensures var fd := FirstDayAsWritten(active.year, active.month);
            var g := GridAsWritten(active.year, active.month);
            1 <= DayRow(fd, active.day) < 7 && 0 <= DayColumn(fd, active.day) < 7
            && forall r, c :: 0 <= r < 7 && 0 <= c < 7 ==>
                 (Highlighted(g[r][c], active.day)
                  <==> r == DayRow(fd, active.day) && c == DayColumn(fd, active.day))
  {
    var md := DaysInMonth(active.year, active.month);
    HighlightIn(FirstDay(active.year, active.month), md, active.day);
    HighlightIn(FirstDayAsWritten(active.year, active.month), md, active.day);
  }

  /** Tapping cell `(r, c)` of a grid of the active month, whatever its
      first-day column, keeps the year and month; tapping a day makes it the
      active day, so that cell becomes the highlighted one. */
  lemma SelectIn(active: Date, firstDay: int, r: int, c: int)
    requires Valid(active) && 0 <= firstDay < 7 && 0 <= r < 7 && 0 <= c < 7
    ensures var cell := SpecGrid(firstDay, DaysInMonth(active.year, active.month))[r][c];
            var x := SelectDay(active, cell);
            x.year == active.year && x.month == active.month
            && (cell.Num? && cell.value != Empty ==> x.day == cell.value && Highlighted(cell, x.day))
            && (cell.Label? || cell == Num(Empty) ==> x == active)
  {
    var md := DaysInMonth(active.year, active.month);
    GridShape(firstDay, md);
    var cell := SpecGrid(firstDay, md)[r][c];
    if cell.Num? && cell.value != Empty {
      DayPosition(firstDay, md, cell.value, r, c);
    }
  }

  /** Tapping any cell of the active month's grid, as `generateMatrix` renders it
      or with the true first-day column, keeps the year and month; tapping a
      day moves the highlight to exactly that cell. */
  lemma SelectFromGrid(active: Date, r: int, c: int)
    requires Valid(active) && 0 <= r < 7 && 0 <= c < 7
    ensures var cell := Grid(active.year, active.month)[r][c];
            var x := SelectDay(active, cell);
            x.year == active.year && x.month == active.month
            && (cell.Num? && cell.value != Empty ==> x.day == cell.value && Highlighted(cell, x.day))
            && (cell.Label? || cell == Num(Empty) ==> x == active)
    ensures var cell := GridAsWritten(active.year, active.month)[r][c];
            var x := SelectDay(active, cell);
            x.year == active.year && x.month == active.month
            && (cell.Num? && cell.value != Empty ==> x.day == cell.value && Highlighted(cell, x.day))
            && (cell.Label? || cell == Num(Empty) ==> x == active)
  {
    SelectIn(active, FirstDay(active.year, active.month), r, c);
    SelectIn(active, FirstDayAsWritten(active.year, active.month), r, c);
  }
}
